=== FILE: README.md ===
# A verified model of the premium Telegram bot's ledger and email flow

The bot sells disposable email addresses (and, later, phone numbers) against
credits. Three parts of it are modelled here:

- **The ledger** (`database..py`). A users table holds each user's name,
  balance, eight-character referral code, referrer and premium flag. A
  settings table maps keys to decimal text. `setup_database` seeds the default
  prices and bonuses with insert-if-absent. `get_setting` reads a value as a
  number and gives 0 for a missing key. `add_user_if_not_exists` registers a
  user once, pays the signup bonus and credits the referrer named by the
  referral code.
- **The session and the router** (`user_bot..py`). `user_temp_data` maps a
  user to their session, which holds their active email. `button_handler`
  dispatches the callback tokens. Its branches are the main menu, the account
  screen, four placeholder menus, the email menu, the ad gate in front of the
  free actions, paid generation (check the balance, then debit), free
  generation, the inbox check, and deletion.
- **The SMS reply parser**: `get_number` splits the provider's
  `ACCESS_NUMBER:id:number` reply on ':'.

Modules:

- `Ledger` (ledger.dfy) holds the tables as maps inside the `Database` class.
  Amounts are whole hundredths (`Cents`). A setting's text is parsed by
  `ParseAmount`, and `None` stands for the `ValueError` that Python's
  `float()` raises. `SignupOf` is the specification of one registration:
  the new table and what happened (already registered, registered with an
  optional referrer, or failed before the commit).
- `Sms` (sms.dfy) has `str.split`/`str.join` on one separator with their
  round trip, and `get_number` twice: as written and corrected.
- `Screens` (screens.dfy) covers the keyboards, which are reduced to their
  callback tokens and links. It also has the replies each handler leaves on
  screen, the ad gate's keyboards before and after the wait, and the messages
  an inbox check sends.
- `Router` (router.dfy) has the token table, the screens of the display-only
  branches, and the `Bot` class. `Bot` holds the database, the ad links, the
  channel link and the sessions.
- Whatever the outside world answers during one interaction arrives as an
  `Outside` value: the mailbox the provider creates, the inbox listing with
  each read's result, the UUID drawn, and the ad pick. The provider calls a
  handler makes are returned as a `ProviderCall` list.

## Model

| member | source | states |
|---|---|---|
| Ledger.ParseAmountText | database..py:96 | An amount written as decimal text reads back as the same amount. |
| Ledger.GetSetting | database..py:89-96 | A missing key reads as 0. A present key reads as its stored text parsed as a number, or fails when the text is not a number. |
| Ledger.GetSettingWritten | database..py:89-96 | After a key is set to an amount's text, `get_setting` returns that amount. |
| Ledger.SeededKeepsExisting | database..py:72-73 | Seeding never overwrites a setting that already exists. |
| Ledger.SeededKeys | database..py:72-73 | After seeding, the keys are exactly the old keys plus the default keys. |
| Ledger.SeededFillsAbsent | database..py:72-73 | A default key that was absent receives its default value. |
| Ledger.SeededIdempotent | database..py:72-73 | Seeding a second time, as on a restart, changes nothing. |
| Ledger.SettingAfterSetup | database..py:63-73 | After setup, each default key reads as its earlier stored value if it had one, and as the default otherwise. |
| Ledger.SetupSignupBonus | database..py:70 | Where no signup bonus was configured, setup makes it 10 credits. |
| Ledger.SetupReferralBonus | database..py:69 | Where no referral bonus was configured, setup makes it 5 credits. |
| Ledger.SetupEmailPrice | database..py:65 | Where no email price was configured, setup makes a paid email cost 1 credit. |
| Ledger.GetUser | database..py:81-87 | Returns the user's row if and only if the user exists. |
| Ledger.Credited | user_bot..py:428 | Only the named user's balance changes, and by exactly the delta. All other rows and all keys stay the same. |
| Ledger.CreditedAccumulates | user_bot..py:428 | Two additive updates equal one update by their sum. |
| Ledger.SignupOf | database..py:98-121 | An existing user changes nothing, whatever code is passed. A failure before the commit changes nothing. A new user gets the signup bonus, an 8-character code taken from the UUID, and the referrer found by the code, and is not premium. That referrer gains exactly the referral bonus. No other row changes. |
| Ledger.SignupConsistent | database..py:104-119 | A signup keeps referral codes unique and 8 characters long, and keeps every referrer an existing user other than the user themself. |
| Ledger.InsertConsistent | database..py:116-119 | Inserting a row with a fresh code and an existing referrer keeps the table consistent. |
| Ledger.ReferrerHolding | database..py:109-112 | A non-empty code names the one user who holds it. |
| Ledger.ReplayRegistered | database..py:101-103 | Repeating `/start` for a registered user never changes the table. |
| Ledger.ReferralCreditedAtMostOnce | database..py:101-114 | Across any number of `/start` attempts by one user, each attempt with its own code, every other user's balance rises by at most one referral bonus. |
| Ledger.Database.SetupDatabase | database..py:62-73 | The settings become the insert-if-absent seeding of the defaults, in order. The users table is untouched. |
| Ledger.Database.AddUserIfNotExists | database..py:98-121 | The new tables and the outcome are those of `SignupOf`, and the table stays consistent. |
| Ledger.Database.UpdateBalance | user_bot..py:428 | The users table becomes `Credited(old, user, delta)`. The settings do not change. |
| Sms.Split | user_bot..py:81 | At least one part, no part contains the separator, and joining the parts gives back the text. |
| Sms.SplitJoin | user_bot..py:81 | Splitting a join of separator-free parts gives back those parts. |
| Sms.GetNumberAsWritten | user_bot..py:72-89 | Without an API key it reports the service as unavailable and makes no request. |
| Sms.ShortAccessReplyRaises | user_bot..py:82-83 | As written, the reply `ACCESS_NUMBER:id` raises `IndexError` instead of returning. |
| Sms.GetNumber | user_bot..py:72-89 | A request is made if and only if the key is set, and to the getNumber URL. A failed request gives an error with its message. With a key and a reply, the result is a number or an error carrying the raw reply text. A number's id and number contain no ':'. Joined after `ACCESS_NUMBER`, they are the whole reply or are followed by ':', which fixes them as exactly the reply's second and third fields. It never raises. |
| Sms.GetNumberAccess | user_bot..py:81-83 | The reply `ACCESS_NUMBER:id:number`, with any further fields after it, gives exactly that id and number. |
| Sms.GetNumberShortAccess | user_bot..py:82-86 | Corrected, the reply `ACCESS_NUMBER:id` that the original crashes on gives an error carrying that text. |
| Sms.GetNumberOtherReply | user_bot..py:84-86 | Any reply whose first field is not `ACCESS_NUMBER` gives an error carrying the raw text. |
| Sms.GetNumberCorrectsOnlyCrash | user_bot..py:81-86 | The correction changes the result only for replies that make the original raise. |
| Screens.MainMenuKeyboard | user_bot..py:126-146 | The main menu offers exactly the account, email, number, premium, referral and support buttons, and its only link is the channel. |
| Screens.MenuBalance | user_bot..py:128-129 | The menu shows the user's balance, or 0 for an unknown user. |
| Screens.EmailControlKeyboard | user_bot..py:148-161 | The refresh token is the ad-free one if and only if `ad_free_refresh` is set. Delete and main menu are always offered, and nothing else. |
| Screens.AdLinksAsWritten | user_bot..py:21 | `AD_LINKS` is never an empty list: it is the fields of the setting, which join back to it. |
| Screens.UnsetAdLinksShowEmptyUrl | user_bot..py:21 | As written, with `AD_LINKS` unset the ad button's URL is the empty string. |
| Screens.AdLinks | user_bot..py:21 | The intended links are exactly the non-empty fields of the setting. |
| Screens.AdUrl | user_bot..py:250 | The ad is one of the links, or the fallback for an empty list. As written the list is never empty (`AdLinksAsWritten`), so the fallback is never taken. |
| Screens.AdUrlNeverEmpty | user_bot..py:21 | With the intended links the ad URL is never empty. It is a configured field when the setting has one, and the fallback otherwise. |
| Screens.ShowAdPrompt | user_bot..py:248-276 | Before the wait only the ad link is shown. After it, the ad link stays first and the action's unlock and cancel tokens are added. For any other action it raises after the wait. |
| Screens.Buttons | user_bot..py:126-452 | The keyboard each screen carries: the main menu (126-146), the email controls (148-161), the account, email offer, no-email, unavailable and delete-confirmation keyboards (231-233, 295-299, 318-321, 339, 443-446). Outside the ad gate, exactly the unknown token, the alerts, the raised handlers and the "press /start" notice carry no keyboard. |
| Screens.BackToMainMenu | user_bot..py:231-359 | The account, email offer, current email, no-email, created, unavailable and inbox-checked screens offer the way back to the main menu, and no other screen (apart from the ad gate) does. |
| Screens.ButtonsHandled | user_bot..py:398-450 | Every screen other than the ad gate offers only tokens that `button_handler` has a branch for. |
| Screens.AccountMenuHandler | user_bot..py:214-234 | Shows the details if and only if the user exists, and otherwise the "press /start" notice. |
| Screens.MyEmailInboxHandler | user_bot..py:302-322 | Shows the current email if and only if the session has one, and otherwise the invitation to create one. |
| Screens.EmailMenuHandler | user_bot..py:279-300 | With an active email it shows the inbox screen. Without one, the paid button is offered if and only if the price parses, at that price. A price that does not parse raises. |
| Screens.NoEmailReplyAsWritten | user_bot..py:369 | As written, the branch raises `TypeError` (missing `user_id`). |
| Screens.NoEmailReply | user_bot..py:368-369 | The intended notice over the user's main menu, showing their balance. |
| Screens.NoEmailReplyDiffers | user_bot..py:369 | As written no new screen or keyboard replaces the old message. As intended the user is offered the email menu. |
| Screens.DeliveriesBound | user_bot..py:360-367 | At most one message per listed entry, and exactly one each when every read has content. |
| Screens.Render | user_bot..py:363-366 | Each field of a sent message is the read detail, or `N/A` (`...` for the body) when the detail is absent. |
| Screens.DeliveriesRender | user_bot..py:360-367 | The k-th message sent renders a listed entry with content, and exactly k messages were sent for the entries before it, so messages follow inbox order. |
| Screens.DeliveriesComplete | user_bot..py:360-367 | Every listed entry with content is sent: its message follows exactly the messages sent for the entries before it. |
| Router.Route | user_bot..py:397-452 | A recognised command was selected by its own token. Any other token is kept as it came. |
| Router.RouteToken | user_bot..py:397-452 | Every branch's token selects that branch, so no two branches share a token. |
| Router.HandledTokensRouted | user_bot..py:398-450 | Every handled token selects a branch. |
| Router.ScreenButtonsRouted | user_bot..py:398-450 | Every button on a screen other than the ad gate leads to a branch of `button_handler`. |
| Router.AdGateButtonsRouted | user_bot..py:255-272 | Every button of the ad gate, before and after the wait, leads to a branch of `button_handler`. |
| Router.AdGateUnlocksFreeAction | user_bot..py:261-266 | `generate_email` unlocks free generation and cancels to the email menu. `check_inbox` unlocks the ad-free inbox check and cancels to the inbox screen. |
| Router.ScreenOf | user_bot..py:400-447 | Which screen each display-only button shows. Only an unknown token shows nothing. Only the four placeholder menus show "coming soon". Only the two ad buttons show the ad gate, starting with the ad link. |
| Router.SignupConfined | user_bot..py:398-399 | The main-menu button signs up without a referral code, so no other user's row changes. |
| Router.SignupNotDebited | user_bot..py:398-399 | Signing up never lowers a balance. |
| Router.PaidGenerationDebit | user_bot..py:424-432 | Paid generation lowers the balance only by the price, and never below zero. |
| Router.GenerationConfined | user_bot..py:325-340 | Generation touches only the sender's session. |
| Router.PaidGenerationConfined | user_bot..py:424-432 | Paid generation touches only the sender's session and ledger row. |
| Router.DeletionConfined | user_bot..py:448-450 | Deletion touches only the sender's session. |
| Router.Bot.constructor | user_bot..py:21-34 | The bot starts with no sessions. Its ad links are the intended reading of the `AD_LINKS` setting. |
| Router.Bot.Start | user_bot..py:165-206 | The ledger becomes `SignupOf`'s table. The reply is the exception when signup failed, and otherwise the welcome screen with the new balance. |
| Router.Bot.EmailGeneration | user_bot..py:325-340 | Exactly one mailbox request is made. If the provider gave an address, the sender's session becomes exactly `{"email": address}`. Otherwise the sessions are unchanged and the failure screen is shown. |
| Router.Bot.PayGenerate | user_bot..py:424-432 | An unparsable price raises with nothing changed. If the user exists and the balance covers the price, the debit is exactly the price, followed by generation. Otherwise there is no debit, no call and no session change. The balance never goes below zero. |
| Router.Bot.InboxProcessing | user_bot..py:343-369 | Without an active email, no provider call is made and the no-email notice is shown. With one, there is one listing call and one read per listed message, in order. The messages sent are those of the reads with content, in order. |
| Router.Bot.DeleteConfirmed | user_bot..py:448-452 | Removes exactly the sender's session, if any, and shows the main menu. |
| Router.Bot.ButtonHandler | user_bot..py:390-452 | Settings never change. Another user's session or row never changes, and no row disappears. The balance falls only on the paid path, by the price. Provider calls happen only on the generation and inbox paths. Each branch does what its handler does. The inbox branch's reply, calls and messages are those of `InboxProcessing` on the sessions before the press. Every branch but the main menu and paid generation leaves the ledger exactly as it was. |

## Left out

- Ledger.GetSetting: parses only plain decimals with at most two fractional digits (an optional '-', digits, an optional '.' and up to two digits). Other forms Python's `float()` accepts (a '+', an exponent, surrounding whitespace, ".5", "inf", more decimals) read here as not a number, because amounts are exact hundredths.
- Balances, prices and bonuses are exact hundredths, not floating point. The `REAL` column's rounding and the `:.2f` formatting are not modelled.
- A settings value that is SQL `NULL` is not modelled. The table holds text only.
- `update_balance` is not defined in `database..py`. `Ledger.Database.UpdateBalance` is the unconditional additive update that its one call site at user_bot..py:428 relies on.
- The PostgreSQL connection, the SQL text, commit and close are not modelled. A raised error before the commit leaves both tables as they were, as a rolled-back transaction would.
- The `staff` and `activity_log` tables and `premium_expiry` are not modelled, because the flow never reads them.
- HTTP calls to the email and SMS providers and JSON decoding are not modelled. Their results are inputs (`Outside`, `HttpReply`). So is the `ValueError` that `email.split('@')` raises on an address without exactly one '@'.
- `get_sms_status` and `set_activation_status` are not modelled, because no handler calls them.
- The `random.choice` ad pick and the `uuid.uuid4()` draw are parameters.
- Environment configuration (`SMS_API_KEY`, the channel link, the wait time) is not read from the environment. Its values are parameters of the `Bot` or of the functions. The `AD_LINKS` setting is passed to the `Bot` as its text.
- Telegram I/O is reduced to the final `Reply` of each handler. Not modelled: the "please wait" edits, the welcome photo and its text fallback, `BadRequest` handling, `query.answer` (called more than once on some paths: three times after insufficient credit, at user_bot..py:393, 431 and 378, and twice on the account and email menus, at 393 with 217 and with 282), labels and Markdown. The redirect to the premium placeholder after insufficient credit is folded into the `InsufficientCredit` reply.
- The wait in `show_ad_prompt` is not modelled. Only the keyboards before and after it are.
- Concurrency is not modelled: two callbacks interleaving on `user_temp_data`, or on the check-then-debit of paid generation. Each handler runs to completion here.
- An inbox check sends one message per read that returned details. A read that returned nothing sends nothing, as user_bot..py:361-367 does, and not one message per listed entry.
- Router.Bot.InboxProcessing: without an active email it shows the corrected `Screens.NoEmailReply`. As written, user_bot..py:369 raises `TypeError` there and shows nothing new (`Screens.NoEmailReplyAsWritten`, see Findings). `Router.Bot.ButtonHandler` inherits this.
- Router.Bot.constructor: takes the ad links as the corrected `Screens.AdLinks` (the non-empty fields of `AD_LINKS`). As written, user_bot..py:21 keeps the empty fields, so an unset variable gives the ad button an empty URL (`Screens.AdLinksAsWritten`, see Findings).
- Router.Bot.ButtonHandler: inherits the corrected no-email notice from `Router.Bot.InboxProcessing`, where user_bot..py:369 as written raises `TypeError` (see Findings).
- Router.Bot.ButtonHandler: takes the `/start` referral argument to be absent on the main-menu button, because a callback query carries no command arguments.

## Findings

| source | as written | input that shows it | evidently intended | confidence | as-written member | corrected member |
|---|---|---|---|---|---|---|
| user_bot..py:369 | `get_main_menu_keyboard()` is called without its required `user_id` | pressing "email_proceed_inbox_ad_free" with no active email | the "no active email" notice over the user's main menu | not executed | Screens.NoEmailReplyAsWritten | Screens.NoEmailReply |
| user_bot..py:83 | `parts[1]` and `parts[2]` are read without checking how many parts there are | the reply text `ACCESS_NUMBER:123` | a short reply is reported as an error carrying the text | not executed | Sms.ShortAccessReplyRaises | Sms.GetNumberShortAccess |
| user_bot..py:21 | `AD_LINKS` is the setting split on ',', which is never an empty list, so the `else "https://telegram.org"` at line 250 is never taken | `AD_LINKS` unset (the pick is then `""`), or a value with a trailing comma | with no configured link, the ad button falls back to the Telegram URL, and empty fields are not links | not executed | Screens.UnsetAdLinksShowEmptyUrl | Screens.AdUrlNeverEmpty |

=== FILE: ledger.dfy ===
/**
 * The bot's persistent store: the `settings` table (key to decimal text) and
 * the `users` table (balance, referral code, referrer, premium flag), with the
 * operations the bot uses on them.  Amounts are whole hundredths of a credit.
 */
module Ledger {

  import opened Wrappers

  type UserId = int

  /** An amount of credit in hundredths (the store keeps a REAL). */
  type Cents = int

  /** The text of a random UUID, as `str(uuid.uuid4())` prints it. */
  type UuidText = s: string | |s| == 36 witness "00000000-0000-0000-0000-000000000000"

  /** One row of the `users` table. */
  datatype User = User(
    firstName: string,
    balance: Cents,
    referralCode: string,
    referredBy: Option<UserId>,
    isPremium: bool)

  /** Why an operation on the store raised instead of committing. */
  datatype DbError =
    | SettingNotANumber(key: string)   // float() of the stored text failed
    | DuplicateReferralCode            // the UNIQUE constraint on referral_code

  // ---------------------------------------------------------------------------
  // Decimal text of amounts
  // ---------------------------------------------------------------------------

  predicate IsDigit(c: char) {
    '0' <= c <= '9'
  }

  predicate AllDigits(s: string) {
    forall i :: 0 <= i < |s| ==> IsDigit(s[i])
  }

  function DigitChar(d: nat): (c: char)
    requires d < 10
    ensures IsDigit(c) && DigitValue(c) == d
  {
    ('0' as int + d) as char
  }

  function DigitValue(c: char): (d: nat)
    requires IsDigit(c)
    ensures d < 10
  {
    c as int - '0' as int
  }

  /** The number a run of decimal digits denotes. */
  function DigitsValue(s: string): nat
    requires AllDigits(s)
  {
    if s == [] then 0
    else 10 * DigitsValue(s[..|s| - 1]) + DigitValue(s[|s| - 1])
  }

  /** Decimal digits of `n`, without leading zeros. */
  function NatText(n: nat): (s: string)
    ensures |s| >= 1 && AllDigits(s) && DigitsValue(s) == n
  {
    if n < 10 then [DigitChar(n)]
    else
      var prefix := NatText(n / 10);
      var s := prefix + [DigitChar(n % 10)];
      assert s[..|s| - 1] == prefix;
      s
  }

  /** Index of the first '.' in `s`, or `|s|` when there is none. */
  function DotIndex(s: string): (k: nat)
    ensures k <= |s|
    ensures k < |s| ==> s[k] == '.'
    ensures forall i :: 0 <= i < k ==> s[i] != '.'
  {
    if s == [] || s[0] == '.' then 0
    else
      var k := 1 + DotIndex(s[1..]);
      assert forall i :: 1 <= i < k ==> s[i] == s[1..][i - 1];
      k
  }

  /** Hundredths given by up to two fractional digits ("5" is 50, "05" is 5). */
  function FractionCents(frac: string): (c: nat)
    requires AllDigits(frac) && |frac| <= 2
    ensures c < 100
  {
    if |frac| == 0 then 0
    else if |frac| == 1 then 10 * DigitValue(frac[0])
    else 10 * DigitValue(frac[0]) + DigitValue(frac[1])
  }

  /** The unsigned part of an amount: digits, then optionally '.' and at most two digits. */
  function ParseUnsigned(s: string): Option<nat>
  {
    var k := DotIndex(s);
    ParseParts(s[..k], if k < |s| then s[k + 1..] else "")
  }

  /** The amount the units before the '.' and the decimals after it denote, if both are well formed. */
  function ParseParts(whole: string, frac: string): Option<nat>
  {
    if |whole| >= 1 && AllDigits(whole) && AllDigits(frac) && |frac| <= 2
    then Some(100 * DigitsValue(whole) + FractionCents(frac))
    else None
  }

  /**
   * `float(text)` as the store's readers apply it, in hundredths; `None` where
   * Python's float() would raise (and on the forms listed as left out).
   */
  function ParseAmount(s: string): Option<Cents>
  {
    if |s| > 0 && s[0] == '-' then
      match ParseUnsigned(s[1..])
      case Some(v) => Some(-(v as int))
      case None => None
    else ParseUnsigned(s)
  }

  /** Two fractional digits for `r` hundredths. */
  function TwoDigits(r: nat): (f: string)
    requires r < 100
    ensures |f| == 2 && AllDigits(f) && FractionCents(f) == r
  {
    [DigitChar(r / 10), DigitChar(r % 10)]
  }

  /** The text of an unsigned amount: units, '.', two digits. */
  function UnsignedText(m: nat): string
  {
    NatText(m / 100) + "." + TwoDigits(m % 100)
  }

  /** The text an amount is written as: optional '-', units, '.', two digits. */
  function AmountText(c: Cents): string
  {
    if c < 0 then "-" + UnsignedText(-c) else UnsignedText(c)
  }

  /** In `w + "." + f` with no '.' in `w`, the joining '.' is the first one. */
  lemma DotAfterWord(w: string, f: string)
    requires '.' !in w
    ensures DotIndex(w + "." + f) == |w|
  {
    var s := w + "." + f;
    assert forall i :: 0 <= i < |w| ==> s[i] == w[i];
    assert s[|w|] == '.';
  }

  /** A unit part and a decimal part joined by '.' are read as those two parts. */
  lemma ParseUnsignedParts(w: string, f: string)
    requires '.' !in w
    ensures ParseUnsigned(w + "." + f) == ParseParts(w, f)
  {
    DotAfterWord(w, f);
    AroundDot(w, f);
  }

  lemma DigitsHaveNoDot(w: string)
    requires AllDigits(w)
    ensures '.' !in w
  {
  }

  /** The text before and after the '.' that joins `w` and `f`. */
  lemma AroundDot(w: string, f: string)
    ensures (w + "." + f)[..|w|] == w && (w + "." + f)[|w| + 1..] == f
  {
  }

  /** Reading back a written amount gives the amount. */
  lemma ParseAmountText(c: Cents)
    ensures ParseAmount(AmountText(c)) == Some(c)
  {
    var m := if c < 0 then -c else c;
    UnsignedTextParses(m);
    if c < 0 {
      assert ("-" + UnsignedText(m))[1..] == UnsignedText(m);
    } else {
      assert IsDigit(UnsignedText(m)[0]);
    }
  }

  /** The unsigned text of `m` hundredths starts with a digit and reads back as `m`. */
  lemma UnsignedTextParses(m: nat)
    ensures |UnsignedText(m)| >= 1 && IsDigit(UnsignedText(m)[0])
    ensures ParseUnsigned(UnsignedText(m)) == Some(m)
  {
    var w := NatText(m / 100);
    DigitsHaveNoDot(w);
    ParseUnsignedParts(w, TwoDigits(m % 100));
    assert UnsignedText(m)[0] == w[0];
    assert 100 * (m / 100) + m % 100 == m;
  }

  // ---------------------------------------------------------------------------
  // The settings table
  // ---------------------------------------------------------------------------

  const SignupBonusKey := "signup_bonus"
  const ReferralBonusKey := "referral_bonus"
  const PriceEmailCreditKey := "price_email_credit"

  /** The defaults `setup_database` offers, in the order it inserts them. */
  const Defaults: seq<(string, string)> := [
    ("price_email_ad", "0.0"),
    ("price_email_credit", "1.0"),
    ("price_number_other", "15.0"),
    ("price_number_facebook", "30.0"),
    ("price_number_google", "50.0"),
    ("referral_bonus", "5.0"),
    ("signup_bonus", "10.0")
  ]

  /** `get_setting`: the stored text read as a number; `Some(0)` when the key is absent. */
  function GetSetting(settings: map<string, string>, key: string): (r: Option<Cents>)
    ensures key !in settings ==> r == Some(0)
    ensures key in settings ==> r == ParseAmount(settings[key])
  {
    if key in settings then ParseAmount(settings[key]) else Some(0)
  }

  /** A setting written as an amount reads back as that amount. */
  lemma GetSettingWritten(settings: map<string, string>, key: string, c: Cents)
    ensures GetSetting(settings[key := AmountText(c)], key) == Some(c)
  {
    ParseAmountText(c);
  }

  /** `INSERT ... ON CONFLICT (key) DO NOTHING`. */
  function InsertIfAbsent(settings: map<string, string>, key: string, value: string): map<string, string>
  {
    if key in settings then settings else settings[key := value]
  }

  /** The settings after inserting every default, in order, with insert-if-absent. */
  function Seeded(settings: map<string, string>, defaults: seq<(string, string)>): map<string, string>
  {
    if defaults == [] then settings
    else
      var last := defaults[|defaults| - 1];
      InsertIfAbsent(Seeded(settings, defaults[..|defaults| - 1]), last.0, last.1)
  }

  function KeysOf(defaults: seq<(string, string)>): set<string>
  {
    set i | 0 <= i < |defaults| :: defaults[i].0
  }

  predicate DistinctKeys(defaults: seq<(string, string)>)
  {
    forall i, j :: 0 <= i < j < |defaults| ==> defaults[i].0 != defaults[j].0
  }

  /** Seeding never overwrites a setting that already exists. */
  lemma {:induction false} SeededKeepsExisting(settings: map<string, string>, defaults: seq<(string, string)>)
    ensures forall k :: k in settings ==> k in Seeded(settings, defaults) && Seeded(settings, defaults)[k] == settings[k]
  {
    if defaults != [] {
      SeededKeepsExisting(settings, defaults[..|defaults| - 1]);
    }
  }

  /** Seeding adds exactly the default keys that were absent, and no other key. */
  lemma {:induction false} SeededKeys(settings: map<string, string>, defaults: seq<(string, string)>)
    ensures Seeded(settings, defaults).Keys == settings.Keys + KeysOf(defaults)
  {
    if defaults != [] {
      var init := defaults[..|defaults| - 1];
      SeededKeys(settings, init);
      assert KeysOf(defaults) == KeysOf(init) + {defaults[|defaults| - 1].0} by {
        forall k | k in KeysOf(defaults) ensures k in KeysOf(init) + {defaults[|defaults| - 1].0} {
          var i :| 0 <= i < |defaults| && defaults[i].0 == k;
          if i < |defaults| - 1 { assert init[i] == defaults[i]; }
        }
        forall k | k in KeysOf(init) ensures k in KeysOf(defaults) {
          var i :| 0 <= i < |init| && init[i].0 == k;
          assert defaults[i] == init[i];
        }
      }
    }
  }

  /** An absent default key receives its default value. */
  lemma {:induction false} SeededFillsAbsent(settings: map<string, string>, defaults: seq<(string, string)>, i: nat)
    requires DistinctKeys(defaults)
    requires i < |defaults| && defaults[i].0 !in settings
    ensures defaults[i].0 in Seeded(settings, defaults)
    ensures Seeded(settings, defaults)[defaults[i].0] == defaults[i].1
  {
    var n := |defaults|;
    var init := defaults[..n - 1];
    if i == n - 1 {
      assert defaults[i].0 !in KeysOf(init) by {
        forall j | 0 <= j < |init| ensures init[j].0 != defaults[i].0 {
          assert init[j] == defaults[j];
        }
      }
      SeededKeys(settings, init);
    } else {
      assert init[i] == defaults[i];
      SeededFillsAbsent(settings, init, i);
    }
  }

  /** Running the seeding a second time (a restart) changes nothing. */
  lemma SeededIdempotent(settings: map<string, string>, defaults: seq<(string, string)>)
    ensures Seeded(Seeded(settings, defaults), defaults) == Seeded(settings, defaults)
  {
    var once := Seeded(settings, defaults);
    SeededKeys(settings, defaults);
    SeededKeys(once, defaults);
    SeededKeepsExisting(once, defaults);
  }

  /** After setup every default key reads as its stored value, or as the default if it was absent. */
  lemma SettingAfterSetup(settings: map<string, string>, i: nat)
    requires i < |Defaults|
    ensures GetSetting(Seeded(settings, Defaults), Defaults[i].0)
         == ParseAmount(if Defaults[i].0 in settings then settings[Defaults[i].0] else Defaults[i].1)
  {
    SeededKeepsExisting(settings, Defaults);
    if Defaults[i].0 !in settings {
      DefaultKeysDistinct();
      SeededFillsAbsent(settings, Defaults, i);
    }
  }

  /** No setting is offered twice with different defaults. */
  lemma DefaultKeysDistinct()
    ensures DistinctKeys(Defaults)
  {
  }

  lemma TenUnitsRead()
    ensures ParseAmount("10.0") == Some(1000)
  {
    assert "10.0" == "10" + "." + "0";
    ParseUnsignedParts("10", "0");
    assert AllDigits("10") && AllDigits("0");
    assert "10"[..1] == "1";
    assert DigitsValue("10") == 10;
    assert ParseParts("10", "0") == Some(1000);
  }

  lemma FiveUnitsRead()
    ensures ParseAmount("5.0") == Some(500)
  {
    assert "5.0" == "5" + "." + "0";
    ParseUnsignedParts("5", "0");
  }

  lemma OneUnitRead()
    ensures ParseAmount("1.0") == Some(100)
  {
    assert "1.0" == "1" + "." + "0";
    ParseUnsignedParts("1", "0");
  }

  /** Where no signup bonus was configured, setup makes it 10 units (1000 hundredths). */
  lemma SetupSignupBonus(settings: map<string, string>)
    requires SignupBonusKey !in settings
    ensures GetSetting(Seeded(settings, Defaults), SignupBonusKey) == Some(1000)
  {
    SettingAfterSetup(settings, 6);
    TenUnitsRead();
  }

  /** Where no referral bonus was configured, setup makes it 5 units. */
  lemma SetupReferralBonus(settings: map<string, string>)
    requires ReferralBonusKey !in settings
    ensures GetSetting(Seeded(settings, Defaults), ReferralBonusKey) == Some(500)
  {
    SettingAfterSetup(settings, 5);
    FiveUnitsRead();
  }

  /** Where no email price was configured, setup makes a paid email cost 1 credit. */
  lemma SetupEmailPrice(settings: map<string, string>)
    requires PriceEmailCreditKey !in settings
    ensures GetSetting(Seeded(settings, Defaults), PriceEmailCreditKey) == Some(100)
  {
    SettingAfterSetup(settings, 1);
    OneUnitRead();
  }

  // ---------------------------------------------------------------------------
  // The users table
  // ---------------------------------------------------------------------------

  /** `get_user`: the row of `userId`, if any. */
  function GetUser(users: map<UserId, User>, userId: UserId): (r: Option<User>)
    ensures r.Some? <==> userId in users
    ensures r.Some? ==> r.value == users[userId]
  {
    if userId in users then Some(users[userId]) else None
  }

  /** `UPDATE users SET balance = balance + delta WHERE user_id = userId`. */
  function Credited(users: map<UserId, User>, userId: UserId, delta: Cents): (r: map<UserId, User>)
    ensures r.Keys == users.Keys
    ensures userId in users ==> r[userId] == users[userId].(balance := users[userId].balance + delta)
    ensures forall id :: id in users && id != userId ==> r[id] == users[id]
  {
    if userId in users then users[userId := users[userId].(balance := users[userId].balance + delta)] else users
  }

  /** Repeated balance updates accumulate additively. */
  lemma CreditedAccumulates(users: map<UserId, User>, userId: UserId, a: Cents, b: Cents)
    ensures Credited(Credited(users, userId, a), userId, b) == Credited(users, userId, a + b)
  {
  }

  predicate CodeInUse(users: map<UserId, User>, code: string)
  {
    exists id :: id in users && users[id].referralCode == code
  }

  /**
   * The users table's invariant: referral codes are unique (the only part the
   * schema enforces, by its UNIQUE constraint); the rest is kept by the bot's
   * own writes: codes are eight characters long, and every referrer is another
   * existing user (no write deletes a row).
   */
  ghost predicate Consistent(users: map<UserId, User>)
  {
    && (forall a, b :: a in users && b in users && users[a].referralCode == users[b].referralCode ==> a == b)
    && (forall id :: id in users ==> |users[id].referralCode| == 8)
    && (forall id :: id in users && users[id].referredBy.Some? ==>
          users[id].referredBy.value in users && users[id].referredBy.value != id)
  }

  /** The user a `/start` referral argument names: a non-empty code some user holds. */
  ghost function ReferrerOf(users: map<UserId, User>, referral: Option<string>): (r: Option<UserId>)
    ensures r.Some? <==> referral.Some? && referral.value != "" && CodeInUse(users, referral.value)
    ensures r.Some? ==> r.value in users && users[r.value].referralCode == referral.value
  {
    if referral.Some? && referral.value != "" && CodeInUse(users, referral.value) then
      var id :| id in users && users[id].referralCode == referral.value;
      Some(id)
    else None
  }

  datatype SignupOutcome =
    | AlreadyRegistered
    | Registered(referrer: Option<UserId>)
    | Failed(error: DbError)

  datatype Signup = Signup(users: map<UserId, User>, outcome: SignupOutcome)

  /** The error `add_user_if_not_exists` raises for a new user, if any. */
  ghost function SignupError(users: map<UserId, User>, settings: map<string, string>,
                             referral: Option<string>, code: string): Option<DbError>
  {
    if GetSetting(settings, SignupBonusKey).None? then Some(SettingNotANumber(SignupBonusKey))
    else if ReferrerOf(users, referral).Some? && GetSetting(settings, ReferralBonusKey).None?
    then Some(SettingNotANumber(ReferralBonusKey))
    else if CodeInUse(users, code) then Some(DuplicateReferralCode)
    else None
  }

  /**
   * The users table after `add_user_if_not_exists(userId, firstName, referral)`
   * with `uuid` as the random UUID: a new user is inserted with the signup
   * bonus and the first eight characters of the UUID as referral code, and the
   * referrer named by the code, if any, is credited the referral bonus, all in
   * one transaction.  An exception before the commit leaves the table as it was.
   */
  ghost function SignupOf(users: map<UserId, User>, settings: map<string, string>, userId: UserId,
                          firstName: string, referral: Option<string>, uuid: UuidText): (r: Signup)
    // an existing user: nothing changes, whatever code is passed
    ensures r.outcome == AlreadyRegistered <==> userId in users
    ensures userId in users ==> r.users == users
    // a raised error: nothing changes
    ensures r.outcome.Failed? <==> userId !in users && SignupError(users, settings, referral, uuid[..8]).Some?
    ensures r.outcome.Failed? ==> r.users == users && Some(r.outcome.error) == SignupError(users, settings, referral, uuid[..8])
    // a new user: signup bonus, eight-character code, referrer link
    ensures r.outcome.Registered? ==>
      && r.users.Keys == users.Keys + {userId}
      && r.users[userId].firstName == firstName
      && Some(r.users[userId].balance) == GetSetting(settings, SignupBonusKey)
      && r.users[userId].referralCode == uuid[..8]
      && |r.users[userId].referralCode| == 8
      && r.users[userId].referredBy == r.outcome.referrer == ReferrerOf(users, referral)
      && !r.users[userId].isPremium
    // the referrer gains exactly the referral bonus
    ensures r.outcome.Registered? && r.outcome.referrer.Some? ==>
      var ref := r.outcome.referrer.value;
      && ref in users && users[ref].referralCode == referral.value
      && Some(r.users[ref].balance - users[ref].balance) == GetSetting(settings, ReferralBonusKey)
      && r.users[ref] == users[ref].(balance := r.users[ref].balance)
    // nobody else changes
    ensures forall id :: id in users && r.outcome != Registered(Some(id)) ==> id in r.users && r.users[id] == users[id]
  {
    var code := uuid[..8];
    if userId in users then Signup(users, AlreadyRegistered)
    else match SignupError(users, settings, referral, code)
      case Some(e) => Signup(users, Failed(e))
      case None =>
        var referrer := ReferrerOf(users, referral);
        var paid := if referrer.Some? then Credited(users, referrer.value, GetSetting(settings, ReferralBonusKey).value) else users;
        var created := User(firstName, GetSetting(settings, SignupBonusKey).value, code, referrer, false);
        assert forall id :: id in paid ==> paid[id].referralCode == users[id].referralCode;
        Signup(paid[userId := created], Registered(referrer))
  }

  /** A signup keeps the store's guarantees on the users table. */
  lemma SignupConsistent(users: map<UserId, User>, settings: map<string, string>, userId: UserId,
                         firstName: string, referral: Option<string>, uuid: UuidText)
    requires Consistent(users)
    ensures Consistent(SignupOf(users, settings, userId, firstName, referral, uuid).users)
  {
    var r := SignupOf(users, settings, userId, firstName, referral, uuid);
    if r.outcome.Registered? {
      assert forall id :: id in users ==> r.users[id].referralCode == users[id].referralCode;
      assert forall id :: id in users ==> r.users[id].referredBy == users[id].referredBy;
      assert !CodeInUse(users, uuid[..8]);
      InsertConsistent(users, r.users, userId);
    }
  }

  /** Adding one row with a fresh code and an existing referrer, links and codes otherwise kept, stays consistent. */
  lemma InsertConsistent(before: map<UserId, User>, after: map<UserId, User>, userId: UserId)
    requires Consistent(before) && userId !in before
    requires after.Keys == before.Keys + {userId}
    requires forall id :: id in before ==>
      after[id].referralCode == before[id].referralCode && after[id].referredBy == before[id].referredBy
    requires !CodeInUse(before, after[userId].referralCode) && |after[userId].referralCode| == 8
    requires after[userId].referredBy.Some? ==> after[userId].referredBy.value in before
    ensures Consistent(after)
  {
    var code := after[userId].referralCode;
    assert forall b :: b in before ==> before[b].referralCode != code;
    forall a, b | a in after && b in after && after[a].referralCode == after[b].referralCode
      ensures a == b
    {
      if a != userId && b != userId {
        assert before[a].referralCode == before[b].referralCode;
      }
    }
    forall id | id in after && after[id].referredBy.Some?
      ensures after[id].referredBy.value in after && after[id].referredBy.value != id
    {
      if id != userId {
        assert after[id].referredBy == before[id].referredBy;
      }
    }
  }

  /** Codes are unique, so the referrer a code names is the one user holding it. */
  lemma ReferrerHolding(users: map<UserId, User>, code: string, id: UserId)
    requires Consistent(users) && code != ""
    requires id in users && users[id].referralCode == code
    ensures ReferrerOf(users, Some(code)) == Some(id)
  {
  }

  /** Repeating `/start` sequences: each attempt carries the referral argument and the UUID drawn. */
  ghost function Replay(users: map<UserId, User>, settings: map<string, string>, userId: UserId,
                        firstName: string, attempts: seq<(Option<string>, UuidText)>): map<UserId, User>
    decreases |attempts|
  {
    if attempts == [] then users
    else Replay(SignupOf(users, settings, userId, firstName, attempts[0].0, attempts[0].1).users,
                settings, userId, firstName, attempts[1..])
  }

  lemma {:induction false} ReplayRegistered(users: map<UserId, User>, settings: map<string, string>, userId: UserId,
                                            firstName: string, attempts: seq<(Option<string>, UuidText)>)
    requires userId in users
    ensures Replay(users, settings, userId, firstName, attempts) == users
  {
    if attempts != [] {
      ReplayRegistered(users, settings, userId, firstName, attempts[1..]);
    }
  }

  /**
   * However often a user repeats `/start`, with whatever referral codes, any
   * other user's balance rises by the referral bonus at most once.
   */
  lemma {:induction false} ReferralCreditedAtMostOnce(users: map<UserId, User>, settings: map<string, string>,
                                                      userId: UserId, firstName: string,
                                                      attempts: seq<(Option<string>, UuidText)>, other: UserId)
    requires other in users && other != userId
    ensures other in Replay(users, settings, userId, firstName, attempts)
    ensures var gain := Replay(users, settings, userId, firstName, attempts)[other].balance - users[other].balance;
            gain == 0 || Some(gain) == GetSetting(settings, ReferralBonusKey)
  {
    if attempts != [] {
      var step := SignupOf(users, settings, userId, firstName, attempts[0].0, attempts[0].1);
      if step.outcome.Registered? {
        ReplayRegistered(step.users, settings, userId, firstName, attempts[1..]);
      } else {
        ReferralCreditedAtMostOnce(users, settings, userId, firstName, attempts[1..], other);
      }
    }
  }

  // ---------------------------------------------------------------------------
  // The database
  // ---------------------------------------------------------------------------

  /** The two tables the bot uses, updated in place. */
  class Database {
    var users: map<UserId, User>
    var settings: map<string, string>

    ghost predicate Valid()
      reads this
    {
      Consistent(users)
    }

    /** Freshly created, empty tables. */
    constructor ()
      ensures Valid() && users == map[] && settings == map[]
    {
      users := map[];
      settings := map[];
    }

    /** `setup_database`: insert each default setting unless its key exists. */
    method SetupDatabase()
      modifies this
      ensures settings == Seeded(old(settings), Defaults)
      ensures users == old(users)
    {
      for i := 0 to |Defaults|
        invariant settings == Seeded(old(settings), Defaults[..i])
        invariant users == old(users)
      {
        var (key, value) := Defaults[i];
        assert Defaults[..i + 1][..i] == Defaults[..i];
        if key !in settings {
          settings := settings[key := value];
        }
      }
      assert Defaults[..|Defaults|] == Defaults;
    }

    /** `add_user_if_not_exists(userId, firstName, referral)`, drawing `uuid` as the random UUID. */
    method AddUserIfNotExists(userId: UserId, firstName: string, referral: Option<string>, uuid: UuidText)
      returns (outcome: SignupOutcome)
      requires Valid()
      modifies this
      ensures Valid()
      ensures var r := SignupOf(old(users), old(settings), userId, firstName, referral, uuid);
              users == r.users && outcome == r.outcome
      ensures settings == old(settings)
    {
      if userId in users {
        return AlreadyRegistered;
      }
      var code := uuid[..8];
      var signupBonus := GetSetting(settings, SignupBonusKey);
      if signupBonus.None? {
        return Failed(SettingNotANumber(SignupBonusKey));
      }
      var referredBy: Option<UserId> := None;
      var staged := users;
      if referral.Some? && referral.value != "" && CodeInUse(users, referral.value) {
        var id :| id in users && users[id].referralCode == referral.value;
        ReferrerHolding(users, referral.value, id);
        referredBy := Some(id);
        var referralBonus := GetSetting(settings, ReferralBonusKey);
        if referralBonus.None? {
          return Failed(SettingNotANumber(ReferralBonusKey));
        }
        staged := Credited(users, id, referralBonus.value);
      }
      assert forall id :: id in staged ==> staged[id].referralCode == users[id].referralCode;
      if CodeInUse(staged, code) {
        return Failed(DuplicateReferralCode);
      }
      SignupConsistent(users, settings, userId, firstName, referral, uuid);
      users := staged[userId := User(firstName, signupBonus.value, code, referredBy, false)];
      outcome := Registered(referredBy);
    }

    /** `update_balance(userId, delta)`: the unconditional additive update its caller relies on. */
    method UpdateBalance(userId: UserId, delta: Cents)
      requires Valid()
      modifies this
      ensures Valid()
      ensures users == Credited(old(users), userId, delta)
      ensures settings == old(settings)
    {
      users := Credited(users, userId, delta);
    }
  }
}

=== FILE: router.dfy ===
/**
 * The callback router (`button_handler`) and the handlers that change state:
 * the in-memory sessions (`user_temp_data`) and, through the database, the
 * ledger.  Provider answers and random draws arrive as an `Outside` value.
 */
module Router {

  import opened Wrappers
  import opened Ledger
  import opened Screens

  /** The callback tokens `button_handler` recognises, and everything else. */
  datatype Command =
    | MainMenu | AccountMenu | NumberMenu | PremiumMenu | ReferralMenu | SupportMenu
    | EmailMenu | MyEmailInbox | EmailAdPrompt | EmailProceedGenerate | EmailPayGenerate
    | EmailInboxPrompt | EmailProceedInboxAdFree | EmailDeleteConfirm | EmailDeleteConfirmed
    | Unmatched(data: string)

  /** The token a recognised command is sent as. */
  function Token(c: Command): string
    requires !c.Unmatched?
  {
    match c
    case MainMenu => "main_menu"
    case AccountMenu => "account_menu"
    case NumberMenu => "number_menu"
    case PremiumMenu => "premium_menu"
    case ReferralMenu => "referral_menu"
    case SupportMenu => "support_menu"
    case EmailMenu => "email_menu"
    case MyEmailInbox => "my_email_inbox"
    case EmailAdPrompt => "email_ad_prompt"
    case EmailProceedGenerate => "email_proceed_generate"
    case EmailPayGenerate => "email_pay_generate"
    case EmailInboxPrompt => "email_inbox_prompt"
    case EmailProceedInboxAdFree => "email_proceed_inbox_ad_free"
    case EmailDeleteConfirm => "email_delete_confirm"
    case EmailDeleteConfirmed => "email_delete_confirmed"
  }

  /** The if/elif chain of `button_handler`: which branch a token selects. */
  function Route(data: string): (c: Command)
    ensures !c.Unmatched? ==> Token(c) == data
    ensures c.Unmatched? ==> c.data == data
  {
    if data == "main_menu" then MainMenu
    else if data == "account_menu" then AccountMenu
    else if data == "number_menu" then NumberMenu
    else if data == "premium_menu" then PremiumMenu
    else if data == "referral_menu" then ReferralMenu
    else if data == "support_menu" then SupportMenu
    else if data == "email_menu" then EmailMenu
    else if data == "my_email_inbox" then MyEmailInbox
    else if data == "email_ad_prompt" then EmailAdPrompt
    else if data == "email_proceed_generate" then EmailProceedGenerate
    else if data == "email_pay_generate" then EmailPayGenerate
    else if data == "email_inbox_prompt" then EmailInboxPrompt
    else if data == "email_proceed_inbox_ad_free" then EmailProceedInboxAdFree
    else if data == "email_delete_confirm" then EmailDeleteConfirm
    else if data == "email_delete_confirmed" then EmailDeleteConfirmed
    else Unmatched(data)
  }

  /** Every recognised command's token routes back to it: no two branches share a token. */
  lemma RouteToken(c: Command)
    requires !c.Unmatched?
    ensures Route(Token(c)) == c
  {
  }

  /** Every token a handled branch is sent as routes to a branch. */
  lemma HandledTokensRouted()
    ensures forall t :: t in HandledTokens ==> !Route(t).Unmatched?
  {
  }

  /** Every button a screen (other than the ad gate) offers leads to a branch of the router. */
  lemma ScreenButtonsRouted(r: Reply, channelLink: string)
    requires !r.AdPrompt?
    ensures forall t :: t in Callbacks(Buttons(r, channelLink)) ==> !Route(t).Unmatched?
  {
    ButtonsHandled(r, channelLink);
    HandledTokensRouted();
  }

  /** Every button of the ad gate, at either stage, leads to a branch of the router. */
  lemma AdGateButtonsRouted(action: string, adUrl: string, channelLink: string)
    ensures forall t :: t in Callbacks(Buttons(AdPrompt(ShowAdPrompt(action, adUrl)), channelLink)) ==> !Route(t).Unmatched?
  {
    var g := ShowAdPrompt(action, adUrl);
    if g.AdGate? {
      assert Unlocks(action) == Some(("email_proceed_generate", "email_menu"))
          || Unlocks(action) == Some(("email_proceed_inbox_ad_free", "my_email_inbox"));
      assert Callbacks(g.after) <= HandledTokens;
      HandledTokensRouted();
    }
  }

  /**
   * After the ad, the unlock button leads to the free variant of the gated
   * action, and cancel back to the screen that offered it.
   */
  lemma AdGateUnlocksFreeAction()
    ensures Unlocks("generate_email") == Some((Token(EmailProceedGenerate), Token(EmailMenu)))
    ensures Unlocks("check_inbox") == Some((Token(EmailProceedInboxAdFree), Token(MyEmailInbox)))
  {
  }

  /** The branches of `button_handler` that only show a screen: no state changes, no provider call. */
  predicate ShowsScreen(c: Command)
  {
    !(c in {MainMenu, EmailProceedGenerate, EmailPayGenerate, EmailProceedInboxAdFree, EmailDeleteConfirmed})
  }

  /**
   * The screen a display-only branch shows: the menus, the placeholder alert
   * of the four unfinished menus, the ad prompts in front of the free email
   * actions, the delete confirmation, and nothing for an unknown token.
   */
  function ScreenOf(c: Command, users: map<UserId, User>, sessions: map<UserId, Session>,
                    settings: map<string, string>, userId: UserId,
                    adLinks: seq<string>, channelLink: string, adPick: nat): (r: Reply)
    requires ShowsScreen(c)
    ensures r == NoResponse <==> c.Unmatched?
    ensures r == ComingSoon <==> c in {NumberMenu, PremiumMenu, ReferralMenu, SupportMenu}
    ensures r.AdPrompt? <==> c in {EmailAdPrompt, EmailInboxPrompt}
    ensures r.AdPrompt? ==> r.gate.before == [[UrlButton(AdUrl(adLinks, adPick))]]
    ensures c == EmailAdPrompt ==> r.gate == ShowAdPrompt("generate_email", AdUrl(adLinks, adPick))
    ensures c == EmailInboxPrompt ==> r.gate == ShowAdPrompt("check_inbox", AdUrl(adLinks, adPick))
    ensures c == AccountMenu ==> r == AccountMenuHandler(users, userId)
    ensures c == EmailMenu ==> r == EmailMenuHandler(sessions, settings, userId, channelLink)
    ensures c == MyEmailInbox ==> r == MyEmailInboxHandler(sessions, userId)
    ensures c == EmailDeleteConfirm ==> r == DeleteConfirmPrompt
  {
    match c
    case AccountMenu => AccountMenuHandler(users, userId)
    case NumberMenu => ComingSoon
    case PremiumMenu => ComingSoon
    case ReferralMenu => ComingSoon
    case SupportMenu => ComingSoon
    case EmailMenu => EmailMenuHandler(sessions, settings, userId, channelLink)
    case MyEmailInbox => MyEmailInboxHandler(sessions, userId)
    case EmailAdPrompt => AdPrompt(ShowAdPrompt("generate_email", AdUrl(adLinks, adPick)))
    case EmailInboxPrompt => AdPrompt(ShowAdPrompt("check_inbox", AdUrl(adLinks, adPick)))
    case EmailDeleteConfirm => DeleteConfirmPrompt
    case Unmatched(_) => NoResponse
  }

  /** A call the bot makes to the disposable-email provider. */
  datatype ProviderCall = CreateMailbox | ListMessages(email: string) | ReadMessage(email: string, id: MessageId)

  /**
   * What the world answers during one interaction: the mailbox the provider
   * creates (None on failure), the inbox listing with each read's result,
   * the UUID drawn for a new referral code, and the random ad choice.
   */
  datatype Outside = Outside(mailbox: Option<string>, inbox: seq<InboxEntry>, uuid: UuidText, adPick: nat)

  /** The Telegram user who pressed the button. */
  datatype Sender = Sender(id: UserId, firstName: string)

  /** `if email:` — a missing or empty address is a provider failure. */
  predicate Created(mailbox: Option<string>)
  {
    mailbox.Some? && mailbox.value != ""
  }

  /** What `email_generation_logic` does to the sessions and the screen. */
  ghost predicate Generation(before: map<UserId, Session>, after: map<UserId, Session>, userId: UserId,
                             mailbox: Option<string>, reply: Reply, calls: seq<ProviderCall>)
  {
    && calls == [CreateMailbox]
    && (Created(mailbox) ==> after == before[userId := map["email" := mailbox.value]] && reply == EmailCreated(mailbox.value))
    && (!Created(mailbox) ==> after == before && reply == EmailUnavailable)
  }

  /** The debit and generation of `email_pay_generate`, or its refusal. */
  ghost predicate PaidGeneration(usersBefore: map<UserId, User>, usersAfter: map<UserId, User>,
                                 settings: map<string, string>,
                                 before: map<UserId, Session>, after: map<UserId, Session>, userId: UserId,
                                 mailbox: Option<string>, reply: Reply, calls: seq<ProviderCall>)
  {
    match GetSetting(settings, PriceEmailCreditKey)
    case None =>
      usersAfter == usersBefore && after == before && calls == []
      && reply == Raised(StoreError(SettingNotANumber(PriceEmailCreditKey)))
    case Some(price) =>
      if userId in usersBefore && usersBefore[userId].balance >= price then
        usersAfter == Credited(usersBefore, userId, -price)
        && Generation(before, after, userId, mailbox, reply, calls)
      else
        usersAfter == usersBefore && after == before && calls == [] && reply == InsufficientCredit
  }

  /**
   * What `inbox_processing_logic` does: with an active email, list its inbox,
   * read every listed message once, in order, and send each read that has
   * content; without one, make no provider call and show the notice.
   */
  predicate InboxCheck(sessions: map<UserId, Session>, users: map<UserId, User>, userId: UserId,
                       inbox: seq<InboxEntry>, reply: Reply, calls: seq<ProviderCall>, sent: seq<Delivery>)
  {
    match ActiveEmail(sessions, userId)
    case None => calls == [] && sent == [] && reply == NoEmailReply(users, userId)
    case Some(email) =>
      && |calls| == |inbox| + 1
      && calls[0] == ListMessages(email)
      && (forall i :: 0 <= i < |inbox| ==> calls[i + 1] == ReadMessage(email, inbox[i].id))
      && sent == Deliveries(inbox)
      && reply == InboxChecked(email, |inbox|)
  }

  /**
   * One user's interaction never touches another user's session or ledger
   * row, and no ledger row disappears.
   */
  ghost predicate Confined(usersBefore: map<UserId, User>, usersAfter: map<UserId, User>,
                           before: map<UserId, Session>, after: map<UserId, Session>, userId: UserId)
  {
    && (forall u :: u != userId ==> (u in after <==> u in before))
    && (forall u :: u != userId && u in after ==> after[u] == before[u])
    && (forall u :: u in usersBefore && u != userId ==> u in usersAfter && usersAfter[u] == usersBefore[u])
    && usersBefore.Keys <= usersAfter.Keys
  }

  /**
   * The user's balance falls only when `paid` holds, then by exactly the
   * configured email price, and never below zero.
   */
  ghost predicate DebitedOnlyWhen(paid: bool, usersBefore: map<UserId, User>, usersAfter: map<UserId, User>,
                                  settings: map<string, string>, userId: UserId)
  {
    userId in usersBefore && userId in usersAfter && usersAfter[userId].balance < usersBefore[userId].balance ==>
      && paid
      && Some(usersBefore[userId].balance - usersAfter[userId].balance) == GetSetting(settings, PriceEmailCreditKey)
      && usersAfter[userId].balance >= 0
  }

  lemma NotDebited(paid: bool, users: map<UserId, User>, settings: map<string, string>, userId: UserId)
    ensures DebitedOnlyWhen(paid, users, users, settings, userId)
  {
  }

  /** Signing up never lowers a balance. */
  lemma SignupNotDebited(users: map<UserId, User>, settings: map<string, string>, sender: Sender, uuid: UuidText)
    ensures DebitedOnlyWhen(false, users, SignupOf(users, settings, sender.id, sender.firstName, None, uuid).users,
                            settings, sender.id)
  {
  }

  /** The paid generation lowers the balance by the price only when the balance covers it. */
  lemma PaidGenerationDebit(usersBefore: map<UserId, User>, usersAfter: map<UserId, User>,
                            settings: map<string, string>,
                            before: map<UserId, Session>, after: map<UserId, Session>, userId: UserId,
                            mailbox: Option<string>, reply: Reply, calls: seq<ProviderCall>)
    requires PaidGeneration(usersBefore, usersAfter, settings, before, after, userId, mailbox, reply, calls)
    ensures DebitedOnlyWhen(true, usersBefore, usersAfter, settings, userId)
  {
  }

  lemma ConfinedUnchanged(users: map<UserId, User>, sessions: map<UserId, Session>, userId: UserId)
    ensures Confined(users, users, sessions, sessions, userId)
  {
  }

  /** The main-menu button signs up without a referral code, so nobody else's row is credited. */
  lemma SignupConfined(users: map<UserId, User>, settings: map<string, string>, sessions: map<UserId, Session>,
                       sender: Sender, uuid: UuidText)
    ensures Confined(users, SignupOf(users, settings, sender.id, sender.firstName, None, uuid).users,
                     sessions, sessions, sender.id)
  {
    var r := SignupOf(users, settings, sender.id, sender.firstName, None, uuid);
    if r.outcome.Registered? {
      assert r.outcome.referrer == None;
      assert users.Keys <= r.users.Keys;
    }
  }

  lemma GenerationConfined(users: map<UserId, User>, before: map<UserId, Session>, after: map<UserId, Session>,
                           userId: UserId, mailbox: Option<string>, reply: Reply, calls: seq<ProviderCall>)
    requires Generation(before, after, userId, mailbox, reply, calls)
    ensures Confined(users, users, before, after, userId)
  {
  }

  lemma PaidGenerationConfined(usersBefore: map<UserId, User>, usersAfter: map<UserId, User>,
                               settings: map<string, string>,
                               before: map<UserId, Session>, after: map<UserId, Session>, userId: UserId,
                               mailbox: Option<string>, reply: Reply, calls: seq<ProviderCall>)
    requires PaidGeneration(usersBefore, usersAfter, settings, before, after, userId, mailbox, reply, calls)
    ensures Confined(usersBefore, usersAfter, before, after, userId)
  {
  }

  lemma DeletionConfined(users: map<UserId, User>, sessions: map<UserId, Session>, userId: UserId)
    ensures Confined(users, users, sessions, sessions - {userId}, userId)
  {
  }

  /** The bot process: its database and the in-memory sessions. */
  class Bot {
    const db: Database
    const adLinks: seq<string>
    const channelLink: string
    var sessions: map<UserId, Session>

    ghost predicate Valid()
      reads this, db
    {
      db.Valid()
    }

    /**
     * Start-up: no sessions (a restart loses them all); the ad links are read
     * from the `AD_LINKS` setting.
     */
    constructor (db: Database, adLinksSetting: string, channelLink: string)
      requires db.Valid()
      ensures Valid() && this.db == db && this.adLinks == AdLinks(adLinksSetting) && this.channelLink == channelLink
      ensures sessions == map[]
    {
      this.db := db;
      this.adLinks := AdLinks(adLinksSetting);
      this.channelLink := channelLink;
      sessions := map[];
    }

    /** `start`: register the user (with the referral argument of `/start`, if any) and show the main menu. */
    method Start(sender: Sender, referral: Option<string>, uuid: UuidText) returns (reply: Reply)
      requires Valid()
      modifies db
      ensures Valid()
      ensures var s := SignupOf(old(db.users), old(db.settings), sender.id, sender.firstName, referral, uuid);
              && db.users == s.users
              && reply == (if s.outcome.Failed? then Raised(StoreError(s.outcome.error))
                           else Welcome(sender.firstName, MenuBalance(db.users, sender.id)))
      ensures db.settings == old(db.settings)
    {
      var outcome := db.AddUserIfNotExists(sender.id, sender.firstName, referral, uuid);
      if outcome.Failed? {
        return Raised(StoreError(outcome.error));
      }
      reply := Welcome(sender.firstName, MenuBalance(db.users, sender.id));
    }

    /** `email_generation_logic`: keep the new address as the session only when the provider gave one. */
    method EmailGeneration(userId: UserId, mailbox: Option<string>) returns (reply: Reply, calls: seq<ProviderCall>)
      modifies this`sessions
      ensures Generation(old(sessions), sessions, userId, mailbox, reply, calls)
    {
      calls := [CreateMailbox];
      if Created(mailbox) {
        sessions := sessions[userId := map["email" := mailbox.value]];
        reply := EmailCreated(mailbox.value);
      } else {
        reply := EmailUnavailable;
      }
    }

    /** The `email_pay_generate` branch: check the balance against the price, debit, generate. */
    method PayGenerate(userId: UserId, mailbox: Option<string>) returns (reply: Reply, calls: seq<ProviderCall>)
      requires Valid()
      modifies this`sessions, db
      ensures Valid()
      ensures PaidGeneration(old(db.users), db.users, old(db.settings), old(sessions), sessions, userId, mailbox, reply, calls)
      ensures db.settings == old(db.settings)
      ensures userId in db.users && db.users[userId].balance < old(db.users)[userId].balance ==> db.users[userId].balance >= 0
    {
      var user := GetUser(db.users, userId);
      var price := GetSetting(db.settings, PriceEmailCreditKey);
      if price.None? {
        return Raised(StoreError(SettingNotANumber(PriceEmailCreditKey))), [];
      }
      if user.Some? && user.value.balance >= price.value {
        db.UpdateBalance(userId, -price.value);
        reply, calls := EmailGeneration(userId, mailbox);
      } else {
        reply, calls := InsufficientCredit, [];
      }
    }

    /**
     * `inbox_processing_logic`: with an active email, list its inbox, read
     * every listed message once and send each read that has content; without
     * one, make no provider call.
     */
    method InboxProcessing(userId: UserId, inbox: seq<InboxEntry>)
      returns (reply: Reply, calls: seq<ProviderCall>, sent: seq<Delivery>)
      ensures InboxCheck(sessions, db.users, userId, inbox, reply, calls, sent)
    {
      var active := ActiveEmail(sessions, userId);
      if active.None? {
        return NoEmailReply(db.users, userId), [], [];
      }
      var email := active.value;
      reply := InboxChecked(email, |inbox|);
      calls := [ListMessages(email)];
      sent := [];
      for i := 0 to |inbox|
        invariant |calls| == i + 1 && calls[0] == ListMessages(email)
        invariant forall j :: 0 <= j < i ==> calls[j + 1] == ReadMessage(email, inbox[j].id)
        invariant sent == Deliveries(inbox[..i])
      {
        calls := calls + [ReadMessage(email, inbox[i].id)];
        assert inbox[..i + 1][..i] == inbox[..i];
        if HasContent(inbox[i]) {
          sent := sent + [Render(inbox[i].details.value)];
        }
      }
      assert inbox[..|inbox|] == inbox;
    }

    /** The `email_delete_confirmed` branch: drop this user's session, if any. */
    method DeleteConfirmed(userId: UserId) returns (reply: Reply)
      modifies this`sessions
      ensures sessions == old(sessions) - {userId}
      ensures reply == EmailDeleted(MenuBalance(db.users, userId))
    {
      if userId in sessions {
        sessions := sessions - {userId};
      }
      reply := EmailDeleted(MenuBalance(db.users, userId));
    }

    /** `button_handler`: dispatch one callback token from `sender`. */
    method ButtonHandler(sender: Sender, data: string, outside: Outside)
      returns (reply: Reply, calls: seq<ProviderCall>, sent: seq<Delivery>)
      requires Valid()
      modifies this`sessions, db
      ensures Valid()
      ensures db.settings == old(db.settings)
      ensures Confined(old(db.users), db.users, old(sessions), sessions, sender.id)
      ensures DebitedOnlyWhen(Route(data) == EmailPayGenerate, old(db.users), db.users, old(db.settings), sender.id)
      // provider calls happen only on the generation and inbox paths
      ensures calls != [] ==> Route(data) in {EmailProceedGenerate, EmailPayGenerate, EmailProceedInboxAdFree}
      ensures sent != [] ==> Route(data) == EmailProceedInboxAdFree
      // the branches
      ensures ShowsScreen(Route(data)) ==>
        && reply == ScreenOf(Route(data), old(db.users), old(sessions), old(db.settings), sender.id,
                             adLinks, channelLink, outside.adPick)
        && sessions == old(sessions) && db.users == old(db.users)
      ensures Route(data) == MainMenu ==>
        var s := SignupOf(old(db.users), old(db.settings), sender.id, sender.firstName, None, outside.uuid);
        db.users == s.users && sessions == old(sessions)
        && reply == (if s.outcome.Failed? then Raised(StoreError(s.outcome.error))
                     else Welcome(sender.firstName, MenuBalance(db.users, sender.id)))
      ensures Route(data) == EmailProceedGenerate ==>
        db.users == old(db.users) && Generation(old(sessions), sessions, sender.id, outside.mailbox, reply, calls)
      ensures Route(data) == EmailPayGenerate ==>
        PaidGeneration(old(db.users), db.users, old(db.settings), old(sessions), sessions, sender.id, outside.mailbox, reply, calls)
      ensures Route(data) == EmailProceedInboxAdFree ==>
        sessions == old(sessions) && db.users == old(db.users)
        && InboxCheck(old(sessions), old(db.users), sender.id, outside.inbox, reply, calls, sent)
      ensures Route(data) == EmailDeleteConfirmed ==>
        sessions == old(sessions) - {sender.id} && db.users == old(db.users)
        && reply == EmailDeleted(MenuBalance(db.users, sender.id))
    {
      calls, sent := [], [];
      var command := Route(data);
      NotDebited(command == EmailPayGenerate, db.users, db.settings, sender.id);
      match command
      case MainMenu =>
        SignupConfined(db.users, db.settings, sessions, sender, outside.uuid);
        SignupNotDebited(db.users, db.settings, sender, outside.uuid);
        reply := Start(sender, None, outside.uuid);
      case EmailProceedGenerate =>
        ConfinedUnchanged(db.users, sessions, sender.id);
        reply, calls := EmailGeneration(sender.id, outside.mailbox);
        GenerationConfined(db.users, old(sessions), sessions, sender.id, outside.mailbox, reply, calls);
      case EmailPayGenerate =>
        reply, calls := PayGenerate(sender.id, outside.mailbox);
        PaidGenerationConfined(old(db.users), db.users, old(db.settings), old(sessions), sessions,
                               sender.id, outside.mailbox, reply, calls);
        PaidGenerationDebit(old(db.users), db.users, old(db.settings), old(sessions), sessions,
                            sender.id, outside.mailbox, reply, calls);
      case EmailProceedInboxAdFree =>
        ConfinedUnchanged(db.users, sessions, sender.id);
        reply, calls, sent := InboxProcessing(sender.id, outside.inbox);
      case EmailDeleteConfirmed =>
        DeletionConfined(db.users, sessions, sender.id);
        reply := DeleteConfirmed(sender.id);
      case _ =>
        ConfinedUnchanged(db.users, sessions, sender.id);
        reply := ScreenOf(command, db.users, sessions, db.settings, sender.id, adLinks, channelLink, outside.adPick);
    }
  }
}

=== FILE: screens.dfy ===
/**
 * What the bot shows: inline keyboards (only their callback tokens and links;
 * the Bengali labels are not modelled), the ad gate's two keyboards, the
 * screens each handler renders, and the messages an inbox check delivers.
 */
module Screens {

  import opened Wrappers
  import opened Ledger
  import opened Sms

  datatype Button = CallbackButton(data: string) | UrlButton(url: string)

  /** Rows of buttons, as `InlineKeyboardMarkup` takes them. */
  type Keyboard = seq<seq<Button>>

  /** The callback tokens a keyboard offers. */
  function Callbacks(k: Keyboard): set<string>
  {
    set i, j | 0 <= i < |k| && 0 <= j < |k[i]| && k[i][j].CallbackButton? :: k[i][j].data
  }

  /** The links (URL buttons) a keyboard offers. */
  function Links(k: Keyboard): set<string>
  {
    set i, j | 0 <= i < |k| && 0 <= j < |k[i]| && k[i][j].UrlButton? :: k[i][j].url
  }

  /** Every callback token `button_handler` has a branch for. */
  const HandledTokens: set<string> :=
    { "main_menu", "account_menu", "number_menu", "premium_menu", "referral_menu", "support_menu",
      "email_menu", "my_email_inbox", "email_ad_prompt", "email_proceed_generate", "email_pay_generate",
      "email_inbox_prompt", "email_proceed_inbox_ad_free", "email_delete_confirm", "email_delete_confirmed" }

  /** The per-user session: `user_temp_data[user_id]`, a small dictionary. */
  type Session = map<string, string>

  /** The active disposable email of a user, if the session holds one. */
  function ActiveEmail(sessions: map<UserId, Session>, userId: UserId): Option<string>
  {
    if userId in sessions && "email" in sessions[userId] then Some(sessions[userId]["email"]) else None
  }

  // ---------------------------------------------------------------------------
  // Keyboards
  // ---------------------------------------------------------------------------

  /** `get_main_menu_keyboard`: the menu (the balance appears in the first label). */
  function MainMenuKeyboard(channelLink: string): (k: Keyboard)
    ensures Callbacks(k) == {"account_menu", "email_menu", "number_menu", "premium_menu", "referral_menu", "support_menu"}
    ensures Links(k) == {channelLink}
  {
    var k := [ [CallbackButton("account_menu")],
               [CallbackButton("email_menu"), CallbackButton("number_menu")],
               [CallbackButton("premium_menu"), CallbackButton("referral_menu")],
               [CallbackButton("support_menu"), UrlButton(channelLink)] ];
    assert k[0][0].data == "account_menu" && k[1][0].data == "email_menu" && k[1][1].data == "number_menu";
    assert k[2][0].data == "premium_menu" && k[2][1].data == "referral_menu" && k[3][0].data == "support_menu";
    assert k[3][1].url == channelLink;
    k
  }

  /** The balance the main menu shows: the user's, or 0 for an unknown user. */
  function MenuBalance(users: map<UserId, User>, userId: UserId): (b: Cents)
    ensures userId in users ==> b == users[userId].balance
    ensures userId !in users ==> b == 0
  {
    match GetUser(users, userId)
    case Some(user) => user.balance
    case None => 0
  }

  /** One callback button per row, in the order given. */
  function Column(tokens: seq<string>): (k: Keyboard)
    ensures |k| == |tokens|
    ensures Callbacks(k) == set t | t in tokens
  {
    if tokens == [] then []
    else
      var k := [[CallbackButton(tokens[0])]] + Column(tokens[1..]);
      assert forall i :: 1 <= i < |k| ==> k[i] == Column(tokens[1..])[i - 1];
      assert Callbacks(k) == {tokens[0]} + Callbacks(Column(tokens[1..])) by {
        assert k[0][0].data == tokens[0];
        forall t | t in Callbacks(Column(tokens[1..])) ensures t in Callbacks(k) {
          var i, j :| 0 <= i < |Column(tokens[1..])| && 0 <= j < |Column(tokens[1..])[i]|
                      && Column(tokens[1..])[i][j].CallbackButton? && Column(tokens[1..])[i][j].data == t;
          assert k[i + 1][j].data == t;
        }
      }
      k
  }

  /**
   * `get_email_control_keyboard`: refresh, delete, back.  The refresh button
   * skips the ad once an ad was watched in this flow.
   */
  function EmailControlKeyboard(adFreeRefresh: bool): (k: Keyboard)
    ensures "email_proceed_inbox_ad_free" in Callbacks(k) <==> adFreeRefresh
    ensures "email_inbox_prompt" in Callbacks(k) <==> !adFreeRefresh
    ensures "email_delete_confirm" in Callbacks(k) && "main_menu" in Callbacks(k)
    ensures |Callbacks(k)| == 3
  {
    var refresh := if adFreeRefresh then "email_proceed_inbox_ad_free" else "email_inbox_prompt";
    var k := [[CallbackButton(refresh)], [CallbackButton("email_delete_confirm")], [CallbackButton("main_menu")]];
    assert k[0][0].data == refresh && k[1][0].data == "email_delete_confirm" && k[2][0].data == "main_menu";
    assert Callbacks(k) == {refresh, "email_delete_confirm", "main_menu"};
    k
  }

  // ---------------------------------------------------------------------------
  // The ad gate
  // ---------------------------------------------------------------------------

  const FallbackAd := "https://telegram.org"

  /**
   * `AD_LINKS` as written: the variable (empty when unset) split on ','.  The
   * list is never empty, so the fallback of `show_ad_prompt` is never taken.
   */
  function AdLinksAsWritten(setting: string): (links: seq<string>)
    ensures links != [] && Join(links, ',') == setting
  {
    Split(setting, ',')
  }

  /** With `AD_LINKS` unset the only link is "", and the ad button gets an empty URL. */
  lemma UnsetAdLinksShowEmptyUrl(pick: nat)
    ensures AdUrl(AdLinksAsWritten(""), pick) == ""
  {
    assert AdLinksAsWritten("") == [""];
  }

  /** The non-empty entries of a list, in order. */
  function NonEmptyFields(parts: seq<string>): (links: seq<string>)
    ensures forall l :: l in links ==> l != "" && l in parts
    ensures forall p :: p in parts && p != "" ==> p in links
  {
    if parts == [] then []
    else (if parts[0] == "" then [] else [parts[0]]) + NonEmptyFields(parts[1..])
  }

  /** `AD_LINKS` as evidently intended: the configured links, empty fields dropped. */
  function AdLinks(setting: string): (links: seq<string>)
    ensures forall l :: l in links ==> l != "" && l in Split(setting, ',')
    ensures forall p :: p in Split(setting, ',') && p != "" ==> p in links
  {
    NonEmptyFields(Split(setting, ','))
  }

  /**
   * With the intended links the ad button always has a URL: a configured link
   * when there is one, the fallback otherwise.
   */
  lemma AdUrlNeverEmpty(setting: string, pick: nat)
    ensures AdUrl(AdLinks(setting), pick) != ""
    ensures (exists p :: p in Split(setting, ',') && p != "") ==> AdUrl(AdLinks(setting), pick) in Split(setting, ',')
    ensures (forall p :: p in Split(setting, ',') ==> p == "") ==> AdUrl(AdLinks(setting), pick) == FallbackAd
  {
    var links := AdLinks(setting);
    if links == [] {
      assert FallbackAd[0] == 'h';
    }
  }

  /** `random.choice(AD_LINKS) if AD_LINKS else ...`, with the random draw as `pick`. */
  function AdUrl(adLinks: seq<string>, pick: nat): (url: string)
    ensures adLinks != [] ==> url in adLinks
    ensures adLinks == [] ==> url == FallbackAd
  {
    if adLinks == [] then FallbackAd else adLinks[pick % |adLinks|]
  }

  /** The unlock and cancel callbacks `show_ad_prompt` offers after the wait, per action. */
  function Unlocks(action: string): Option<(string, string)>
  {
    if action == "generate_email" then Some(("email_proceed_generate", "email_menu"))
    else if action == "check_inbox" then Some(("email_proceed_inbox_ad_free", "my_email_inbox"))
    else None
  }

  /**
   * The keyboard shown before the wait and the one shown after it; for an
   * action with no unlock the source raises after the wait (the name
   * `callback_data` is unbound) and only the first keyboard was shown.
   */
  datatype AdGate = AdGate(before: Keyboard, after: Keyboard) | AdGateRaised(before: Keyboard)

  /** `show_ad_prompt(query, action)`, time left out: the keyboard before and after the wait. */
  function ShowAdPrompt(action: string, adUrl: string): (g: AdGate)
    ensures g.before == [[UrlButton(adUrl)]] && Callbacks(g.before) == {}
    ensures g.AdGate? <==> Unlocks(action).Some?
    ensures g.AdGate? ==>
      && |g.after| == 3 && g.after[..1] == g.before
      && Callbacks(g.after) == {Unlocks(action).value.0, Unlocks(action).value.1}
  {
    var before := [[UrlButton(adUrl)]];
    assert Callbacks(before) == {} by {
      assert forall i, j | 0 <= i < |before| && 0 <= j < |before[i]| :: before[i][j].UrlButton?;
    }
    match Unlocks(action)
    case None => AdGateRaised(before)
    case Some((unlock, cancel)) =>
      var after := before + [[CallbackButton(unlock)], [CallbackButton(cancel)]];
      assert after[1][0].data == unlock && after[2][0].data == cancel;
      assert Callbacks(after) == {unlock, cancel};
      AdGate(before, after)
  }

  // ---------------------------------------------------------------------------
  // Screens
  // ---------------------------------------------------------------------------

  /** Why a handler raised instead of replying. */
  datatype Fault = StoreError(error: DbError) | MissingUserIdArgument

  /** What a handler leaves on the user's screen (or why it left nothing). */
  datatype Reply =
    | NoResponse                              // an unmatched callback token
    | Raised(fault: Fault)                    // an exception ended the handler
    | Welcome(firstName: string, balance: Cents)
    | AccountNotFound
    | AccountDetails(userId: UserId, user: User)
    | ComingSoon                              // the alert of the placeholder menus
    | EmailOffer(price: Cents)
    | CurrentEmail(email: string)
    | NoActiveEmail
    | AdPrompt(gate: AdGate)
    | EmailCreated(email: string)
    | EmailUnavailable
    | InsufficientCredit
    | InboxChecked(email: string, count: nat)
    | NoEmailToCheck(balance: Cents)
    | DeleteConfirmPrompt
    | EmailDeleted(balance: Cents)

  /**
   * The inline keyboard each screen carries.  The "press /start" notice is an
   * edit without a keyboard, which removes the old one; alerts, raised handlers
   * and an unknown token edit nothing, so none of them brings a keyboard of its
   * own.  The ad gate shows the keyboard of its last stage.
   */
  function Buttons(r: Reply, channelLink: string): (k: Keyboard)
    ensures !r.AdPrompt? ==>
      (k == [] <==> r.NoResponse? || r.Raised? || r.AccountNotFound? || r.ComingSoon? || r.InsufficientCredit?)
  {
    match r
    case Welcome(_, _) => MainMenuKeyboard(channelLink)
    case AccountDetails(_, _) => Column(["main_menu"])
    case EmailOffer(_) => Column(["email_ad_prompt", "email_pay_generate", "main_menu"])
    case CurrentEmail(_) => EmailControlKeyboard(false)
    case NoActiveEmail => Column(["email_menu", "main_menu"])
    case AdPrompt(g) => if g.AdGate? then g.after else g.before
    case EmailCreated(_) => EmailControlKeyboard(false)
    case EmailUnavailable => Column(["main_menu"])
    case InboxChecked(_, _) => EmailControlKeyboard(true)
    case NoEmailToCheck(_) => MainMenuKeyboard(channelLink)
    case DeleteConfirmPrompt => Column(["email_delete_confirmed", "my_email_inbox"])
    case EmailDeleted(_) => MainMenuKeyboard(channelLink)
    case _ => []
  }

  /**
   * Every screen with a keyboard, except the main menu itself, the ad gate
   * and the delete confirmation, offers the way back to the main menu.
   */
  lemma BackToMainMenu(r: Reply, channelLink: string)
    requires !r.AdPrompt?
    ensures "main_menu" in Callbacks(Buttons(r, channelLink)) <==>
      r.AccountDetails? || r.EmailOffer? || r.CurrentEmail? || r.NoActiveEmail? || r.EmailCreated?
      || r.EmailUnavailable? || r.InboxChecked?
  {
  }

  /** A screen other than the ad gate offers only tokens the router has a branch for. */
  lemma ButtonsHandled(r: Reply, channelLink: string)
    requires !r.AdPrompt?
    ensures Callbacks(Buttons(r, channelLink)) <= HandledTokens
  {
  }

  /** `account_menu_handler`: the user's details, or a request to press /start. */
  function AccountMenuHandler(users: map<UserId, User>, userId: UserId): (r: Reply)
    ensures r.AccountDetails? <==> userId in users
    ensures r.AccountDetails? ==> r.user == users[userId] && r.userId == userId
    ensures !r.AccountDetails? ==> r == AccountNotFound
  {
    match GetUser(users, userId)
    case Some(user) => AccountDetails(userId, user)
    case None => AccountNotFound
  }

  /** `my_email_inbox_handler`: the active email with its controls, or an invitation to create one. */
  function MyEmailInboxHandler(sessions: map<UserId, Session>, userId: UserId): (r: Reply)
    ensures r.CurrentEmail? <==> ActiveEmail(sessions, userId).Some?
    ensures r.CurrentEmail? ==> r.email == ActiveEmail(sessions, userId).value
    ensures !r.CurrentEmail? ==> r == NoActiveEmail
  {
    match ActiveEmail(sessions, userId)
    case Some(email) => CurrentEmail(email)
    case None => NoActiveEmail
  }

  /**
   * `email_menu_handler`: a user with an active email is sent to it; otherwise
   * the free (ad) and paid ways to create one, at the current price.
   */
  function EmailMenuHandler(sessions: map<UserId, Session>, settings: map<string, string>, userId: UserId,
                     channelLink: string): (r: Reply)
    ensures ActiveEmail(sessions, userId).Some? ==> r == MyEmailInboxHandler(sessions, userId)
    ensures "email_pay_generate" in Callbacks(Buttons(r, channelLink)) <==>
      ActiveEmail(sessions, userId).None? && GetSetting(settings, PriceEmailCreditKey).Some?
    ensures r.EmailOffer? ==> Some(r.price) == GetSetting(settings, PriceEmailCreditKey)
    ensures ActiveEmail(sessions, userId).None? && GetSetting(settings, PriceEmailCreditKey).None? ==>
      r == Raised(StoreError(SettingNotANumber(PriceEmailCreditKey)))
  {
    if ActiveEmail(sessions, userId).Some? then
      var r := MyEmailInboxHandler(sessions, userId);
      assert Buttons(r, channelLink) == EmailControlKeyboard(false);
      assert "email_pay_generate" !in Callbacks(Buttons(r, channelLink));
      r
    else match GetSetting(settings, PriceEmailCreditKey)
      case None => Raised(StoreError(SettingNotANumber(PriceEmailCreditKey)))
      case Some(price) =>
        var k := Buttons(EmailOffer(price), channelLink);
        assert k[1][0].data == "email_pay_generate";
        EmailOffer(price)
  }

  /**
   * The "no active email" branch of `inbox_processing_logic` as written:
   * `get_main_menu_keyboard()` is called without its `user_id`, so it raises
   * TypeError before the message is edited.
   */
  function NoEmailReplyAsWritten(): (r: Reply)
    ensures r == Raised(MissingUserIdArgument)
  {
    Raised(MissingUserIdArgument)
  }

  /** The branch as evidently intended: the notice over this user's main menu. */
  function NoEmailReply(users: map<UserId, User>, userId: UserId): (r: Reply)
    ensures r.NoEmailToCheck? && r.balance == MenuBalance(users, userId)
  {
    NoEmailToCheck(MenuBalance(users, userId))
  }

  /** As written no new screen replaces the old message; as intended the menu offers a new email. */
  lemma NoEmailReplyDiffers(users: map<UserId, User>, userId: UserId, channelLink: string)
    ensures Buttons(NoEmailReplyAsWritten(), channelLink) == []
    ensures "email_menu" in Callbacks(Buttons(NoEmailReply(users, userId), channelLink))
  {
    var k := Buttons(NoEmailReply(users, userId), channelLink);
    assert k[1][0] == CallbackButton("email_menu");
  }

  // ---------------------------------------------------------------------------
  // Inbox messages
  // ---------------------------------------------------------------------------

  type MessageId = int

  /** One inbox listing entry with what reading it returns (`None` when the read failed). */
  datatype InboxEntry = InboxEntry(id: MessageId, details: Option<map<string, string>>)

  /** The message the bot sends for one read email. */
  datatype Delivery = Delivery(fromAddress: string, subject: string, date: string, body: string)

  function FieldOr(details: map<string, string>, key: string, default: string): string
  {
    if key in details then details[key] else default
  }

  /** The message text's fields: each read detail, or its `.get` default when absent. */
  function Render(details: map<string, string>): (d: Delivery)
    ensures "from" in details ==> d.fromAddress == details["from"]
    ensures "from" !in details ==> d.fromAddress == "N/A"
    ensures "subject" in details ==> d.subject == details["subject"]
    ensures "subject" !in details ==> d.subject == "N/A"
    ensures "date" in details ==> d.date == details["date"]
    ensures "date" !in details ==> d.date == "N/A"
    ensures "textBody" in details ==> d.body == details["textBody"]
    ensures "textBody" !in details ==> d.body == "..."
  {
    Delivery(FieldOr(details, "from", "N/A"), FieldOr(details, "subject", "N/A"),
             FieldOr(details, "date", "N/A"), FieldOr(details, "textBody", "..."))
  }

  /** `if details:` — a failed read (None) and an empty object send nothing. */
  predicate HasContent(e: InboxEntry)
  {
    e.details.Some? && e.details.value != map[]
  }

  /** The messages sent for the entries, in order: one per entry with content. */
  function Deliveries(inbox: seq<InboxEntry>): seq<Delivery>
  {
    if inbox == [] then []
    else
      var last := inbox[|inbox| - 1];
      Deliveries(inbox[..|inbox| - 1]) + (if HasContent(last) then [Render(last.details.value)] else [])
  }

  /** At most one message per entry, exactly one each when every read has content. */
  lemma {:induction false} DeliveriesBound(inbox: seq<InboxEntry>)
    ensures |Deliveries(inbox)| <= |inbox|
    ensures (forall i :: 0 <= i < |inbox| ==> HasContent(inbox[i])) ==> |Deliveries(inbox)| == |inbox|
  {
    if inbox != [] {
      var init := inbox[..|inbox| - 1];
      assert forall i :: 0 <= i < |init| ==> init[i] == inbox[i];
      DeliveriesBound(init);
    }
  }

  /**
   * The k-th message sent renders an entry with content, and exactly k
   * messages were sent for the entries before it: the messages follow inbox order.
   */
  lemma {:induction false} DeliveriesRender(inbox: seq<InboxEntry>, k: nat)
    requires k < |Deliveries(inbox)|
    ensures exists i :: 0 <= i < |inbox| && HasContent(inbox[i]) && |Deliveries(inbox[..i])| == k
                        && Deliveries(inbox)[k] == Render(inbox[i].details.value)
  {
    var init := inbox[..|inbox| - 1];
    if k < |Deliveries(init)| {
      DeliveriesRender(init, k);
      var i :| 0 <= i < |init| && HasContent(init[i]) && |Deliveries(init[..i])| == k
               && Deliveries(init)[k] == Render(init[i].details.value);
      assert inbox[i] == init[i] && inbox[..i] == init[..i];
    } else {
      var i := |inbox| - 1;
      assert inbox[..i] == init;
    }
  }

  /**
   * Every entry with content is sent: its message comes right after the
   * messages sent for the entries before it.
   */
  lemma DeliveriesComplete(inbox: seq<InboxEntry>, i: nat)
    requires i < |inbox| && HasContent(inbox[i])
    ensures |Deliveries(inbox[..i])| < |Deliveries(inbox)|
    ensures Deliveries(inbox)[|Deliveries(inbox[..i])|] == Render(inbox[i].details.value)
  {
    assert inbox[..i + 1][..i] == inbox[..i];
    DeliveriesPrefix(inbox, i + 1);
  }

  /** The messages for a prefix of the inbox are a prefix of the messages for all of it. */
  lemma {:induction false} DeliveriesPrefix(inbox: seq<InboxEntry>, j: nat)
    requires j <= |inbox|
    ensures Deliveries(inbox[..j]) <= Deliveries(inbox)
  {
    if j < |inbox| {
      var init := inbox[..|inbox| - 1];
      assert init[..j] == inbox[..j];
      DeliveriesPrefix(init, j);
    } else {
      assert inbox[..j] == inbox;
    }
  }
}

=== FILE: sms.dfy ===
/**
 * `get_number`: ask SMS-Activate for a number and read its colon-separated
 * reply.  The HTTP exchange is an input; the reply text is split on ':' as
 * Python's `str.split(':')` does.
 */
module Sms {

  import opened Wrappers

  /** What one HTTP request produced: the body of a success status, or the text of the raised error. */
  datatype HttpReply = Response(text: string) | RequestFailed(message: string)

  /** The dictionary `get_number` returns. */
  datatype NumberResult =
    | ServiceUnavailable                      // {'error': 'Service not available'}
    | Number(id: string, number: string)      // {'status': 'success', 'id': ..., 'number': ...}
    | NumberError(message: string)            // {'status': 'error', 'message': ...}
    | IndexErrorRaised                        // the call raised instead of returning

  /** The request `get_number` makes (if any) and what it returns. */
  datatype NumberCall = NumberCall(request: Option<string>, result: NumberResult)

  const AccessNumber := "ACCESS_NUMBER"

  /** `sep.join(parts)`. */
  function Join(parts: seq<string>, sep: char): string
    requires |parts| >= 1
  {
    if |parts| == 1 then parts[0] else parts[0] + [sep] + Join(parts[1..], sep)
  }

  /** `s.split(sep)`: the maximal separator-free runs between separators. */
  function Split(s: string, sep: char): (parts: seq<string>)
    ensures |parts| >= 1
    ensures forall i :: 0 <= i < |parts| ==> sep !in parts[i]
    ensures Join(parts, sep) == s
  {
    if s == [] then [""]
    else if s[0] == sep then [""] + Split(s[1..], sep)
    else
      var rest := Split(s[1..], sep);
      var parts := [[s[0]] + rest[0]] + rest[1..];
      assert parts[1..] == rest[1..];
      parts
  }

  /** Splitting a join of separator-free parts gives the parts back. */
  lemma {:induction false} SplitJoin(parts: seq<string>, sep: char)
    requires |parts| >= 1
    requires forall i :: 0 <= i < |parts| ==> sep !in parts[i]
    ensures Split(Join(parts, sep), sep) == parts
  {
    if |parts| == 1 {
      SplitFree(parts[0], sep);
    } else {
      SplitJoin(parts[1..], sep);
      SplitPrefix(parts[0], Join(parts[1..], sep), sep);
    }
  }

  lemma {:induction false} SplitFree(s: string, sep: char)
    requires sep !in s
    ensures Split(s, sep) == [s]
  {
    if s != [] {
      SplitFree(s[1..], sep);
    }
  }

  /** A separator-free word followed by the separator becomes its own first part. */
  lemma {:induction false} SplitPrefix(w: string, rest: string, sep: char)
    requires sep !in w
    ensures Split(w + [sep] + rest, sep) == [w] + Split(rest, sep)
  {
    if w != [] {
      var s := w + [sep] + rest;
      assert s[0] == w[0] && s[0] != sep;
      assert s[1..] == w[1..] + [sep] + rest;
      SplitPrefix(w[1..], rest, sep);
      var tail := Split(s[1..], sep);
      assert tail == [w[1..]] + Split(rest, sep);
      assert [s[0]] + tail[0] == w;
      assert tail[1..] == Split(rest, sep);
    } else {
      assert (w + [sep] + rest)[1..] == rest;
    }
  }

  /** The getNumber URL; the key is set. */
  function NumberUrl(apiKey: string, serviceCode: string, countryCode: string): string
  {
    "https://api.sms-activate.org/stubs/handler_api.php?api_key=" + apiKey
      + "&action=getNumber&service=" + serviceCode + "&country=" + countryCode
  }

  /** `if not SMS_API_KEY`: unset or empty. */
  predicate KeySet(apiKey: Option<string>)
  {
    apiKey.Some? && apiKey.value != ""
  }

  /** `get_number` as written: `parts[1]` and `parts[2]` are read without a length check. */
  function GetNumberAsWritten(apiKey: Option<string>, serviceCode: string, countryCode: string,
                              reply: HttpReply): (r: NumberCall)
    ensures !KeySet(apiKey) ==> r == NumberCall(None, ServiceUnavailable)
  {
    if !KeySet(apiKey) then NumberCall(None, ServiceUnavailable)
    else
      var url := Some(NumberUrl(apiKey.value, serviceCode, countryCode));
      match reply
      case RequestFailed(message) => NumberCall(url, NumberError(message))
      case Response(text) =>
        var parts := Split(text, ':');
        if parts[0] == AccessNumber then
          if |parts| >= 3 then NumberCall(url, Number(parts[1], parts[2]))
          else NumberCall(url, IndexErrorRaised)
        else NumberCall(url, NumberError(text))
  }

  /** A success reply without the number field makes the call raise instead of reporting an error. */
  lemma ShortAccessReplyRaises(apiKey: string, serviceCode: string, countryCode: string, id: string)
    requires apiKey != "" && ':' !in id
    ensures GetNumberAsWritten(Some(apiKey), serviceCode, countryCode, Response(AccessNumber + ":" + id)).result
         == IndexErrorRaised
  {
    var parts := [AccessNumber, id];
    assert parts[1..] == [id];
    SplitJoin(parts, ':');
  }

  /**
   * `get_number` with the length check the error path evidently intends: a
   * reply with fewer than three fields is an error carrying the raw text.
   */
  function GetNumber(apiKey: Option<string>, serviceCode: string, countryCode: string,
                     reply: HttpReply): (r: NumberCall)
    ensures r.request.Some? <==> KeySet(apiKey)
    ensures !KeySet(apiKey) ==> r.result == ServiceUnavailable
    ensures KeySet(apiKey) ==> r.request == Some(NumberUrl(apiKey.value, serviceCode, countryCode))
    ensures reply.RequestFailed? && KeySet(apiKey) ==> r.result == NumberError(reply.message)
    ensures KeySet(apiKey) && reply.Response? ==> r.result.Number? || r.result == NumberError(reply.text)
    ensures r.result.Number? ==>
      && reply.Response? && ':' !in r.result.id && ':' !in r.result.number
      && Join([AccessNumber, r.result.id, r.result.number], ':') <= reply.text
    ensures r.result.Number? ==>
      var fields := Join([AccessNumber, r.result.id, r.result.number], ':');
      reply.text == fields || fields + [':'] <= reply.text
    ensures !r.result.IndexErrorRaised?
  {
    if !KeySet(apiKey) then NumberCall(None, ServiceUnavailable)
    else
      var url := Some(NumberUrl(apiKey.value, serviceCode, countryCode));
      match reply
      case RequestFailed(message) => NumberCall(url, NumberError(message))
      case Response(text) =>
        var parts := Split(text, ':');
        if parts[0] == AccessNumber && |parts| >= 3 then
          JoinPrefix(parts, ':');
          assert parts[..3] == [AccessNumber, parts[1], parts[2]];
          NumberCall(url, Number(parts[1], parts[2]))
        else NumberCall(url, NumberError(text))
  }

  /**
   * The first three fields, joined, are the whole text or are followed by a
   * separator: the third field is the third part and not a prefix of it.
   */
  lemma JoinPrefix(parts: seq<string>, sep: char)
    requires |parts| >= 3
    ensures Join(parts[..3], sep) <= Join(parts, sep)
    ensures Join(parts, sep) == Join(parts[..3], sep) || Join(parts[..3], sep) + [sep] <= Join(parts, sep)
  {
    if |parts| == 3 {
      assert parts[..3] == parts;
    } else {
      JoinSplit(parts, 3, sep);
    }
  }

  /** A join splits at any inner field boundary into the joins of both sides. */
  lemma {:induction false} JoinSplit(parts: seq<string>, n: nat, sep: char)
    requires 1 <= n < |parts|
    ensures Join(parts, sep) == Join(parts[..n], sep) + [sep] + Join(parts[n..], sep)
  {
    if n == 1 {
      assert parts[1..] == parts[n..];
    } else {
      JoinSplit(parts[1..], n - 1, sep);
      assert parts[1..][..n - 1] == parts[..n][1..];
      assert parts[1..][n - 1..] == parts[n..];
    }
  }

  /**
   * A reply `ACCESS_NUMBER:id:number`, followed by any further fields, gives
   * exactly that id and number.
   */
  lemma GetNumberAccess(apiKey: string, serviceCode: string, countryCode: string, id: string, number: string,
                        rest: seq<string>)
    requires apiKey != "" && ':' !in id && ':' !in number
    requires forall i :: 0 <= i < |rest| ==> ':' !in rest[i]
    ensures GetNumber(Some(apiKey), serviceCode, countryCode, Response(Join([AccessNumber, id, number] + rest, ':'))).result
         == Number(id, number)
  {
    AccessNumberFree();
    LeadingFields(AccessNumber, id, number, rest, ':');
  }

  /** Splitting a join of separator-free parts gives back its first three parts first. */
  lemma LeadingFields(tag: string, id: string, number: string, rest: seq<string>, sep: char)
    requires sep !in tag && sep !in id && sep !in number
    requires forall i :: 0 <= i < |rest| ==> sep !in rest[i]
    ensures var fields := Split(Join([tag, id, number] + rest, sep), sep);
            |fields| >= 3 && fields[0] == tag && fields[1] == id && fields[2] == number
  {
    var parts := [tag, id, number] + rest;
    forall i | 0 <= i < |parts| ensures sep !in parts[i] {
      if i >= 3 {
        assert parts[i] == rest[i - 3];
      }
    }
    SplitJoin(parts, sep);
  }

  lemma AccessNumberFree()
    ensures ':' !in AccessNumber
  {
  }

  /** The short reply the original crashes on is, once corrected, an error carrying the raw text. */
  lemma GetNumberShortAccess(apiKey: string, serviceCode: string, countryCode: string, id: string)
    requires apiKey != "" && ':' !in id
    ensures GetNumber(Some(apiKey), serviceCode, countryCode, Response(AccessNumber + ":" + id)).result
         == NumberError(AccessNumber + ":" + id)
  {
    var parts := [AccessNumber, id];
    assert parts[1..] == [id];
    SplitJoin(parts, ':');
  }

  /** Any other reply yields an error carrying the raw text. */
  lemma GetNumberOtherReply(apiKey: string, serviceCode: string, countryCode: string, text: string)
    requires apiKey != "" && Split(text, ':')[0] != AccessNumber
    ensures GetNumber(Some(apiKey), serviceCode, countryCode, Response(text)).result == NumberError(text)
  {
  }

  /** The correction changes only the replies the original would have crashed on. */
  lemma GetNumberCorrectsOnlyCrash(apiKey: Option<string>, serviceCode: string, countryCode: string, reply: HttpReply)
    ensures var written := GetNumberAsWritten(apiKey, serviceCode, countryCode, reply);
            written.result != IndexErrorRaised ==> GetNumber(apiKey, serviceCode, countryCode, reply) == written
  {
  }
}

=== FILE: wrappers.dfy ===
/** Optional values: Python's `None` versus a present value. */
module Wrappers {

  datatype Option<+T> = None | Some(value: T)
}
